=== FILE: README.md ===
# Restart to Windows: countdown, GRUB scan and dialog text

A model of the core of the GNOME Shell extension that adds a
"Restart to Windows..." item to the system menu. The extension file mostly
glues widgets, timers, a subprocess and a D-Bus proxy together. Three pieces
of real logic sit inside it, and these are modelled and proved here:

- **The countdown** (`countdown.dfy`, module `Countdown`). Activating the
  item sets `counter` and the displayed `seconds` to 60. It opens the dialog,
  which starts a redraw interval, and then starts a one-second tick interval.
  Each tick decrements `counter`. The tick copies `counter` into `seconds`
  only when the new value is a multiple of 10. The tick that finds `counter`
  already at 0 clears both intervals and calls `reboot()`. Cancel clears the
  intervals and closes the dialog. Restart clears the intervals and reboots at
  once. `disable()` clears the intervals. The state is an immutable datatype.
  Each interval is a "running" flag, and the host's callbacks are a sequence
  of events applied by `Step`/`Run`.
- **The GRUB scan** (`grub.dfy`, module `Grub`). This is
  `get_windows_grub_entry` once the file has been decoded. It splits the text
  on `/\r?\n/`. It matches each line against
  `^\s*menuentry ['"]([^'"]*)['"]`, using a hand-written matcher and a
  declarative description of the match. It keeps a capture when
  `!capture.toLowerCase().search('windows')` holds. `search` returns an index,
  and 0 is its only falsy value, so this holds exactly when the lower-cased
  capture *starts with* "windows". The last kept capture is returned, or `""`
  when no line qualifies.
- **The dialog text** (`message.dfy`, module `DialogMessage`). This is the
  template with its first `%d` replaced by `String(seconds)`.

Also modelled:

- `reboot()` builds a command line (`reboot.dfy`, module `Reboot`). The
  scanned name is interpolated into `pkexec grub-reboot "<name>"` without
  escaping and without an emptiness check.
- `strings.dfy` (module `Strings`) holds the JavaScript string primitives these
  rely on: the `\s` class, `indexOf`/`search`, `replace` with a string pattern,
  and `String(n)` for the integers the dialog shows.

Two behaviours of the code are kept as written:

- An empty entry name is not rejected; it is passed to `grub-reboot` as `""`.
- The timeout path and the Restart button leave the dialog open. The model
  therefore keeps a `dialogOpen` flag, and the buttons act only while the
  dialog is open. A second Restart click reboots again.

One behaviour is not kept: the activate handler does not clear the
intervals of a countdown that is already running; it only overwrites their
handles. In the code the old tick interval keeps running, out of reach of
Cancel, and once its `counter` reaches 0 it calls `reboot()` every second.
A running flag per interval cannot represent two live tick intervals, so
`Activate` here replaces the running countdown with a fresh one (see the
`Countdown.ActivateForgetsHistory` line under "## Left out").

## Model

| member | source | states |
|---|---|---|
| Strings.IndexOf | src/extension.ts:142 | the result is -1 or an index where the needle occurs, and the needle occurs at no earlier index |
| Strings.ReplaceFirst | src/extension.ts:213-216 | without an occurrence of the pattern the text is returned unchanged; otherwise the text before the first occurrence is kept, the replacement takes the pattern's place, and the text after it is kept, so the length changes by the difference of the two lengths |
| Strings.ReplaceFirstAt | src/extension.ts:213-216 | replacing the first occurrence of the pattern keeps the text before and after it unchanged |
| Strings.DecimalString | src/extension.ts:215 | `String(n)` of a safe integer is a numeral in canonical form: it starts with a minus sign exactly when `n` is negative, never has a zero right after the sign, and starts with `0` only when it is `"0"` |
| Strings.DecimalRoundTrip | src/extension.ts:215 | `String(n)` of a safe integer, one with \|n\| <= 2^53 (in particular every value of `seconds`, 0..60), is a well-formed decimal numeral, and reading it back gives `n` |
| Grub.SplitLines | src/extension.ts:136 | splitting on `\r?\n` gives one more line than the text has LFs, and no line contains an LF |
| Grub.CrLfSeparates | src/extension.ts:136 | a CR right before an LF is part of the separator: it belongs to neither the line before nor the line after |
| Grub.SplitJoinRoundTrip | src/extension.ts:136 | splitting the LF-join of lines without LFs (and, except the last, not ending in CR) gives the lines back |
| Grub.JoinSplitRoundTrip | src/extension.ts:136 | for text without CR, joining the split lines with LF rebuilds the text |
| Grub.MatchMenuEntry | src/extension.ts:138-141 | every capture the matcher returns is a match of the pattern: leading `\s`, `menuentry`, one space, a quote, a quote-free capture, a quote |
| Grub.MatchComplete | src/extension.ts:138-141 | whenever the pattern matches a line with some capture, the matcher returns exactly that capture |
| Grub.MixedQuotesMatch | src/extension.ts:138 | the opening and closing quotes may differ: `menuentry "name'` captures `name` |
| Grub.TwoSpacesNoMatch | src/extension.ts:138 | two spaces after `menuentry` make the line fail the pattern, whatever follows |
| Grub.IsWindowsName | src/extension.ts:142 | `!search('windows')` on the lower-cased capture holds exactly when "windows" occurs at index 0, that is, exactly when the lower-cased capture starts with "windows" |
| Grub.WindowsNameIgnoresCase | src/extension.ts:142 | the test ignores case: a name passes exactly when its first seven characters are the letters of "windows", each in lower or upper case |
| Grub.WindowsPrefixAccepted | src/extension.ts:142 | every name starting with "Windows" passes the test, whatever follows |
| Grub.WindowsInsideRejected | src/extension.ts:142 | a name such as "Microsoft Windows" fails the test: `search` finds "windows" at a positive index, which is truthy, so its negation is false |
| Grub.LastWindowsEntry | src/extension.ts:133-147 | the scan result is `""` or a name passing the windows test, and never contains a quote character |
| Grub.LastEntryIsLastQualifying | src/extension.ts:140-147 | the result is the capture of the last line that matches and passes the test |
| Grub.NoEntryIffNoQualifyingLine | src/extension.ts:133-147 | the result is `""` exactly when no line qualifies |
| Grub.LastEntryAppend | src/extension.ts:140-147 | scanning two blocks of lines gives the second block's entry if it has one, and otherwise the first block's |
| Grub.NonQualifyingLineIgnored | src/extension.ts:140-146 | removing a line that does not qualify (one the pattern does not match, say) leaves the result unchanged |
| Grub.WindowsGrubEntry | src/extension.ts:130-148 | the forEach loop over the split lines computes the last qualifying capture, and `""` exactly when none qualifies |
| Reboot.CommandLine | src/extension.ts:152 | the command is the fixed prefix `pkexec grub-reboot "`, then the entry name exactly as given, then a closing `"` |
| Reboot.CommandLineQuotes | src/extension.ts:152 | for a quote-free name, the command line's only double quotes are the two around the name, which lies exactly between them |
| Reboot.RebootCommandQuotes | src/extension.ts:151-152 | for any configuration text, the name scanned from it is delimited by exactly two double quotes in the command |
| Reboot.EmptyEntryPassesThrough | src/extension.ts:151-152 | a configuration with no qualifying line yields `pkexec grub-reboot ""` |
| DialogMessage.MessageText | src/extension.ts:212-217 | the message is the template's text before `%d`, the decimal rendering of `seconds`, and the template's text after `%d` |
| DialogMessage.MessageRoundTrip | src/extension.ts:212-216 | the number can be read back from the message text |
| DialogMessage.MessageTextInjective | src/extension.ts:212-216 | different numbers give different message texts |
| Countdown.ClearIntervals | src/extension.ts:219-222 | afterwards neither the tick nor the redraw interval is running, and nothing else in the state changes |
| Countdown.Activate | src/extension.ts:70-77 | the activate handler sets `counter` and `seconds` to 60, opens the dialog, starts the redraw and tick intervals, and makes no reboot |
| Countdown.Cancel | src/extension.ts:163-166 | the Cancel action stops both intervals and closes the dialog without rebooting, leaving `counter` and `seconds` as they were |
| Countdown.ActivateForgetsHistory | src/extension.ts:70-77 | activation sets `counter` and `seconds` to 60 and starts both intervals, whatever the previous state; only the reboot count carries over |
| Countdown.Tick | src/extension.ts:77-87 | a tick with `counter > 0` decrements it by one without rebooting and leaves both intervals and the dialog as they were; `seconds` changes only to the new `counter`, and only on a multiple of 10; a tick at `counter <= 0` clears both intervals and reboots once |
| Countdown.Step | src/extension.ts:70-205 | an activation starts a fresh countdown of 60 with the dialog open and both intervals running; with the dialog open, Cancel stops both intervals and closes it, and Restart stops both intervals and reboots once, leaving it open; `disable()` stops both intervals without rebooting; a redraw firing changes no state; a tick firing after its interval was cleared changes nothing; a button click changes nothing unless the dialog is open; one event reboots at most once, and a rebooting event leaves no interval running; only an activation starts an interval |
| Countdown.StepPreservesInv | src/extension.ts:71-87 | every event keeps `0 <= counter <= 60`, `seconds` a multiple of 10, and `counter <= seconds <= counter + 9` |
| Countdown.RunPreservesInv | src/extension.ts:71-87 | any sequence of events keeps that display invariant |
| Countdown.ReachableSatisfiesInv | src/extension.ts:71-82 | from start-up, the displayed value is always one of 0, 10, ..., 60 |
| Countdown.NeverShowsOffStep | src/extension.ts:80-82 | the dialog never shows a number that is not a multiple of 10 (47, for example) |
| Countdown.RebootsOnSixtyFirstTick | src/extension.ts:77-87 | after activation the dialog stays open and ticks 1 to 60 count down without a reboot; the 61st reboots once and clears both intervals; later ticks change nothing |
| Countdown.DialogOpenWhileCounting | src/extension.ts:74-82 | from activation through the 60th tick the dialog stays open and the tick interval keeps running, with no reboot yet |
| Countdown.CancelBeforeTimeoutNeverReboots | src/extension.ts:77-166 | a Cancel click at any point up to the 60th tick stops both intervals and closes the dialog, and no later event short of a new activation reboots |
| Countdown.TickPathRebootsAtMostOnce | src/extension.ts:83-86 | without a new activation or a Restart click, events cause at most one reboot, and none unless the tick interval was running |
| Countdown.CancelIsFinal | src/extension.ts:161-169 | after Cancel no interval runs, the dialog is closed, and no event short of a new activation changes anything or reboots |
| Countdown.RestartNow | src/extension.ts:170-175 | Restart clears both intervals and reboots exactly once, whatever `counter` is, and leaves the numbers unchanged and the dialog as it was (the action does not close it) |
| Countdown.RestartFromStartUp | src/extension.ts:70-175 | from start-up, activating the item and clicking Restart reboots exactly once, and a second Restart click on the still open dialog reboots a second time |
| Countdown.Disable | src/extension.ts:118-120 | disabling clears both intervals without rebooting and without closing the dialog |

## Left out

- The GNOME Shell widgets (menu item, modal dialog, labels, layout): host toolkit calls with no checkable logic. The dialog appears only as the `dialogOpen` flag that gates the buttons.
- Real time. The 1000 ms tick and 500 ms redraw periods are not modelled; an interval is a running flag, and its firings are events in any order the host chooses. The redraw callback only re-renders `Shown` of the state.
- Countdown.ActivateForgetsHistory: activation overwrites the interval handles without clearing the intervals they name, so re-activating during a countdown leaks the old intervals. The leaked tick interval keeps decrementing `counter`, Cancel cannot stop it, and once `counter` is 0 it calls `reboot()` every second. With boolean flags the model cannot represent two live tick intervals, so the model starts one fresh countdown instead. The modal dialog keeps the menu item out of reach while a countdown runs.
- Initial state: `counter` and `seconds` are undefined before the first activation and nothing reads them. `Initial` sets them to 0.
- File loading and UTF-8 decoding of `/boot/grub/grub.cfg`: I/O. The scan starts from the decoded text, and a failing read is not modelled.
- Grub.IsWindowsName: `toLowerCase` is modelled on ASCII letters only. The two non-ASCII characters whose lower-case forms contain ASCII letters (KELVIN SIGN, and CAPITAL I WITH DOT ABOVE, which becomes `i` plus a combining dot) cannot produce the prefix "windows" either way.
- Translation through gettext: the identity.
- Strings.DecimalRoundTrip: JavaScript numbers are doubles. Above 2^53 in magnitude not every integer is representable, and `String(n)` prints the shortest digit string that rounds back to the double (so `String(2**64)` is `18446744073709552000`), switching to an exponent from 10^21 on. `DecimalString` renders the exact digits of an unbounded integer, which agrees with `String(n)` only for safe integers, \|n\| <= 2^53. Only 0..60 is ever rendered.
- Strings.DecimalString: the same bound as `Strings.DecimalRoundTrip`: it is `String(n)` only for \|n\| <= 2^53.
- Shell-word parsing of the command line, `pkexec`, the `grub-reboot` subprocess, and awaiting its exit: foreign calls. The name is interpolated unescaped. A backslash in a name would escape the closing quote; that consequence depends on the parser and is not verified.
- The logind D-Bus proxy and its `Reboot` call: I/O.
- `enable`, the idle poll for the system menu, and the rest of `disable`: host plumbing. Only `disable`'s call of `clearIntervals` is modelled.
- The asynchrony of `reboot()`: the model counts calls of `reboot()`, not their completion.

=== FILE: countdown.dfy ===
/** The confirmation countdown of the "Restart to Windows" menu item, with the
    host scheduler reduced to events. Activating the item opens the dialog,
    starts the redraw interval and the one-second tick interval; each tick
    decrements `counter` and copies it to the displayed `seconds` only on a
    multiple of ten; the tick that finds `counter` at zero clears both
    intervals and reboots. Cancel clears the intervals and closes the dialog;
    Restart clears them and reboots at once. An interval is a flag: a
    cleared interval delivers no further callbacks. */
module Countdown {
  import DialogMessage

  /** Seconds counted down after activation. */
  const TotalSeconds: int := 60

  /** The displayed value follows `counter` only on multiples of this. */
  const DisplayStep: int := 10

  /** `reboots` counts calls of `reboot()`; `tickRunning` and `msgRunning`
      stand for the live tick and redraw intervals. */
  datatype Countdown = Countdown(
    counter: int,
    seconds: int,
    tickRunning: bool,
    msgRunning: bool,
    dialogOpen: bool,
    reboots: nat)

  /** What the host can deliver: the menu item's activation, a firing of
      either interval, a click on either dialog button, and the extension
      being disabled. */
  datatype Event =
    | MenuActivated
    | TickElapsed
    | RedrawElapsed
    | CancelClicked
    | RestartClicked
    | Disabled

  /** Before the first activation nothing is running; `counter` and
      `seconds` are unset and nothing reads them, so they start at zero. */
  const Initial: Countdown := Countdown(0, 0, false, false, false, 0)

  /** `clearIntervals()`. */
  function ClearIntervals(s: Countdown): (r: Countdown)
    ensures !r.tickRunning && !r.msgRunning
    ensures r.(tickRunning := s.tickRunning, msgRunning := s.msgRunning) == s
  {
    s.(tickRunning := false, msgRunning := false)
  }

  /** `reboot()`, as far as the countdown is concerned. */
  function Reboot(s: Countdown): (r: Countdown)
    ensures r.reboots == s.reboots + 1
    ensures r.(reboots := s.reboots) == s
  {
    s.(reboots := s.reboots + 1)
  }

  /** The menu item's `activate` handler: reset both numbers, open the
      dialog (which starts the redraw interval) and start the tick interval. */
  function Activate(s: Countdown): (r: Countdown)
    ensures r.counter == TotalSeconds && r.seconds == TotalSeconds
    ensures r.tickRunning && r.msgRunning && r.dialogOpen
    ensures r.reboots == s.reboots
  {
    Countdown(TotalSeconds, TotalSeconds, true, true, true, s.reboots)
  }

  /** The tick interval's callback. `counter - 1` is never negative where it
      is reduced modulo ten, so JavaScript's `%` and Dafny's agree. */
  function Tick(s: Countdown): (r: Countdown)
    ensures s.counter > 0 ==> r.counter == s.counter - 1 && r.reboots == s.reboots
    ensures s.counter > 0 ==>
      r.tickRunning == s.tickRunning && r.msgRunning == s.msgRunning && r.dialogOpen == s.dialogOpen
    ensures s.counter <= 0 ==> r.reboots == s.reboots + 1 && !r.tickRunning && !r.msgRunning
    ensures r.seconds != s.seconds ==> r.seconds == r.counter && r.counter % DisplayStep == 0
  {
    if s.counter > 0 then
      var c := s.counter - 1;
      if c % DisplayStep == 0 then s.(counter := c, seconds := c) else s.(counter := c)
    else
      Reboot(ClearIntervals(s))
  }

  /** The Cancel button (also bound to Escape). */
  function Cancel(s: Countdown): (r: Countdown)
    ensures !r.tickRunning && !r.msgRunning && !r.dialogOpen
    ensures r.reboots == s.reboots && r.counter == s.counter && r.seconds == s.seconds
  {
    ClearIntervals(s).(dialogOpen := false)
  }

  /** The Restart button: reboot now, whatever `counter` is. The dialog is
      not closed. */
  function RestartNow(s: Countdown): (r: Countdown)
    ensures !r.tickRunning && !r.msgRunning
    ensures r.reboots == s.reboots + 1 && r.counter == s.counter && r.seconds == s.seconds
    ensures r.dialogOpen == s.dialogOpen
  {
    Reboot(ClearIntervals(s))
  }

  /** `disable()` clears both intervals; it does not close an open dialog. */
  function Disable(s: Countdown): (r: Countdown)
    ensures !r.tickRunning && !r.msgRunning
    ensures r.reboots == s.reboots && r.dialogOpen == s.dialogOpen
  {
    ClearIntervals(s)
  }

  /** One event delivered by the host. A cleared interval fires no more and
      the buttons act only while the dialog is open; the redraw callback
      only re-renders the text, which is `Shown` of the state. */
  function Step(s: Countdown, e: Event): (r: Countdown)
    ensures e == MenuActivated ==>
      && r.counter == TotalSeconds && r.seconds == TotalSeconds
      && r.tickRunning && r.msgRunning && r.dialogOpen && r.reboots == s.reboots
    ensures e == CancelClicked && s.dialogOpen ==>
      !r.dialogOpen && !r.tickRunning && !r.msgRunning && r.reboots == s.reboots
    ensures e == RestartClicked && s.dialogOpen ==>
      r.reboots == s.reboots + 1 && r.dialogOpen && !r.tickRunning && !r.msgRunning
    ensures e == Disabled ==>
      !r.tickRunning && !r.msgRunning && r.reboots == s.reboots && r.dialogOpen == s.dialogOpen
    ensures e == RedrawElapsed ==> r == s
    ensures e == TickElapsed && !s.tickRunning ==> r == s
    ensures (e == CancelClicked || e == RestartClicked) && !s.dialogOpen ==> r == s
    ensures r.reboots <= s.reboots + 1
    ensures r.reboots == s.reboots + 1 ==> !r.tickRunning && !r.msgRunning
    ensures e != MenuActivated && !s.tickRunning && !s.msgRunning ==> !r.tickRunning && !r.msgRunning
  {
    match e
    case MenuActivated => Activate(s)
    case TickElapsed => if s.tickRunning then Tick(s) else s
    case RedrawElapsed => s
    case CancelClicked => if s.dialogOpen then Cancel(s) else s
    case RestartClicked => if s.dialogOpen then RestartNow(s) else s
    case Disabled => Disable(s)
  }

  function Run(s: Countdown, events: seq<Event>): Countdown
    decreases |events|
  {
    if |events| == 0 then s else Run(Step(s, events[0]), events[1..])
  }

  /** `n` consecutive firings of the tick interval. */
  function Ticks(s: Countdown, n: nat): Countdown {
    if n == 0 then s else Step(Ticks(s, n - 1), TickElapsed)
  }

  /** The message the dialog shows. */
  function Shown(s: Countdown): string {
    DialogMessage.MessageText(s.seconds)
  }

  /** The display invariant: `counter` stays within the countdown range and
      `seconds` is the multiple of ten that `counter` most recently passed
      through, so `counter <= seconds <= counter + 9`. */
  predicate Inv(s: Countdown) {
    && 0 <= s.counter <= TotalSeconds
    && s.seconds % DisplayStep == 0
    && s.counter <= s.seconds < s.counter + DisplayStep
  }

  /** Activation forgets the previous countdown entirely; only the number of
      reboots already made carries over. */
  lemma ActivateForgetsHistory(s: Countdown, t: Countdown)
    ensures Activate(s) == Activate(t).(reboots := s.reboots)
    ensures Activate(s).counter == TotalSeconds && Activate(s).seconds == TotalSeconds
    ensures Activate(s).tickRunning && Activate(s).msgRunning && Activate(s).dialogOpen
    ensures Inv(Activate(s))
  {
  }

  /** Every event keeps the display invariant. */
  lemma StepPreservesInv(s: Countdown, e: Event)
    requires Inv(s)
    ensures Inv(Step(s, e))
  {
    if e == TickElapsed && s.tickRunning && s.counter > 0 {
      var c := s.counter - 1;
      if c % DisplayStep != 0 {
        assert s.seconds != c + DisplayStep;
      }
    }
  }

  lemma {:induction false} RunPreservesInv(s: Countdown, events: seq<Event>)
    requires Inv(s)
    ensures Inv(Run(s, events))
    decreases |events|
  {
    if |events| > 0 {
      StepPreservesInv(s, events[0]);
      RunPreservesInv(Step(s, events[0]), events[1..]);
    }
  }

  /** Whatever happens from start-up on, the displayed value is a multiple
      of ten between 0 and 60 and never below `counter`. */
  lemma ReachableSatisfiesInv(events: seq<Event>)
    ensures Inv(Run(Initial, events))
    ensures Run(Initial, events).seconds in {0, 10, 20, 30, 40, 50, 60}
  {
    RunPreservesInv(Initial, events);
    var s := Run(Initial, events);
    assert s.seconds % 10 == 0 && 0 <= s.seconds <= 60;
  }

  /** The dialog never shows a number that is not a multiple of ten - for
      instance, it never shows 47. */
  lemma NeverShowsOffStep(events: seq<Event>, n: int)
    requires n % DisplayStep != 0
    ensures Shown(Run(Initial, events)) != DialogMessage.MessageText(n)
  {
    ReachableSatisfiesInv(events);
    var s := Run(Initial, events);
    if Shown(s) == DialogMessage.MessageText(n) {
      DialogMessage.MessageTextInjective(s.seconds, n);
    }
  }

  /** After activation the first 60 ticks count down by one each without
      rebooting; the 61st reboots once and clears both intervals; later
      ticks find no interval and change nothing. */
  lemma {:induction false} RebootsOnSixtyFirstTick(s: Countdown, n: nat)
    ensures var t := Ticks(Activate(s), n);
      && Inv(t)
      && t.dialogOpen
      && (n <= TotalSeconds ==> t.counter == TotalSeconds - n && t.tickRunning && t.msgRunning && t.reboots == s.reboots)
      && (n > TotalSeconds ==> t.counter == 0 && !t.tickRunning && !t.msgRunning && t.reboots == s.reboots + 1)
  {
    if n > 0 {
      RebootsOnSixtyFirstTick(s, n - 1);
      StepPreservesInv(Ticks(Activate(s), n - 1), TickElapsed);
    }
  }

  /** Events that are neither an activation nor a Restart click. */
  predicate TimerDriven(events: seq<Event>) {
    forall i :: 0 <= i < |events| ==> events[i] != MenuActivated && events[i] != RestartClicked
  }

  /** Without a new activation or a Restart click, the tick path reboots at
      most once, and only if the tick interval is running to begin with:
      the rebooting tick clears its own interval first. */
  lemma {:induction false} TickPathRebootsAtMostOnce(s: Countdown, events: seq<Event>)
    requires TimerDriven(events)
    ensures Run(s, events).reboots <= s.reboots + (if s.tickRunning then 1 else 0)
    decreases |events|
  {
    if |events| > 0 {
      assert TimerDriven(events[1..]) by {
        forall i | 0 <= i < |events[1..]| ensures events[1..][i] != MenuActivated && events[1..][i] != RestartClicked {
          assert events[1..][i] == events[i + 1];
        }
      }
      TickPathRebootsAtMostOnce(Step(s, events[0]), events[1..]);
    }
  }

  /** After Cancel, nothing short of a new activation changes the state:
      no tick fires, no reboot happens, no button is left to click. */
  lemma {:induction false} CancelIsFinal(s: Countdown, events: seq<Event>)
    requires forall i :: 0 <= i < |events| ==> events[i] != MenuActivated
    ensures Run(Cancel(s), events) == Cancel(s)
    decreases |events|
  {
    if |events| > 0 {
      assert Step(Cancel(s), events[0]) == Cancel(s);
      assert forall i :: 0 <= i < |events[1..]| ==> events[1..][i] == events[i + 1];
      CancelIsFinal(s, events[1..]);
    }
  }

  /** While the countdown runs - up to the 60th tick - the dialog stays
      open, so its Cancel and Restart buttons remain live. */
  lemma DialogOpenWhileCounting(s: Countdown, n: nat)
    requires n <= TotalSeconds
    ensures Ticks(Activate(s), n).dialogOpen
    ensures Ticks(Activate(s), n).tickRunning && Ticks(Activate(s), n).reboots == s.reboots
  {
    RebootsOnSixtyFirstTick(s, n);
  }

  /** Cancelling at any point of the countdown means the system is never
      rebooted by it: both intervals are gone, the dialog is closed, and
      nothing short of a new activation changes that. */
  lemma CancelBeforeTimeoutNeverReboots(s: Countdown, n: nat, events: seq<Event>)
    requires n <= TotalSeconds
    requires forall i :: 0 <= i < |events| ==> events[i] != MenuActivated
    ensures var r := Run(Ticks(Activate(s), n), [CancelClicked] + events);
      && !r.tickRunning && !r.msgRunning && !r.dialogOpen
      && r.reboots == s.reboots
  {
    var t := Ticks(Activate(s), n);
    RebootsOnSixtyFirstTick(s, n);
    var all := [CancelClicked] + events;
    assert all[0] == CancelClicked && all[1..] == events;
    assert Step(t, CancelClicked) == Cancel(t);
    CancelIsFinal(t, events);
  }

  /** From start-up, activating the item and clicking Restart reboots once;
      the dialog stays open, so a second click reboots again. */
  lemma RestartFromStartUp()
    ensures Run(Initial, [MenuActivated, RestartClicked]).reboots == 1
    ensures Run(Initial, [MenuActivated, RestartClicked, RestartClicked]).reboots == 2
  {
    var one := [MenuActivated, RestartClicked];
    assert one[1..] == [RestartClicked];
    assert one[1..][1..] == [];
    var two := [MenuActivated, RestartClicked, RestartClicked];
    assert two[1..] == [RestartClicked, RestartClicked];
    assert two[1..][1..] == [RestartClicked];
    assert two[1..][1..][1..] == [];
  }
}

=== FILE: grub.dfy ===
/** The scan of the GRUB configuration for the Windows boot entry, once the
    file has been read and decoded: split the text into lines, match each
    line against `^\s*menuentry ['"]([^'"]*)['"]`, keep the captures whose
    lower-cased form starts with "windows", and return the last one kept
    (or the empty string). */
module Grub {
  import opened Strings

  /** The capture group of a regular-expression match, or no match. */
  datatype Option<+T> = None | Some(value: T)

  // ---------------------------------------------------------------------
  // Splitting on /\r?\n/
  // ---------------------------------------------------------------------

  /** Number of occurrences of `c` in `s`. */
  function Count(s: string, c: char): nat {
    if |s| == 0 then 0 else (if s[0] == c then 1 else 0) + Count(s[1..], c)
  }

  /** `text.split(/\r?\n/)`: every LF, together with a CR right before it,
      separates two lines; a CR not followed by LF stays in its line. */
  function SplitLines(text: string): (lines: seq<string>)
    ensures |lines| == Count(text, '\n') + 1
    ensures forall i :: 0 <= i < |lines| ==> '\n' !in lines[i]
  {
    if |text| == 0 then [""]
    else if text[0] == '\n' then [""] + SplitLines(text[1..])
    else if text[0] == '\r' && |text| >= 2 && text[1] == '\n' then [""] + SplitLines(text[2..])
    else
      var rest := SplitLines(text[1..]);
      [[text[0]] + rest[0]] + rest[1..]
  }

  /** The lines joined back with a single LF between neighbours. */
  function JoinLines(lines: seq<string>): string
    requires |lines| >= 1
  {
    if |lines| == 1 then lines[0] else lines[0] + "\n" + JoinLines(lines[1..])
  }

  predicate EndsWithCr(s: string) {
    |s| > 0 && s[|s| - 1] == '\r'
  }

  /** Lines that carry no LF of their own and, except the last, do not end in
      CR are exactly what splitting their LF-join gives back. */
  predicate Separable(lines: seq<string>) {
    && |lines| >= 1
    && (forall i :: 0 <= i < |lines| ==> '\n' !in lines[i])
    && (forall i :: 0 <= i < |lines| - 1 ==> !EndsWithCr(lines[i]))
  }

  /** A piece free of LF glues onto the first line of whatever follows it,
      unless it ends in CR and the rest starts with LF. */
  lemma {:induction false} SplitPrepend(w: string, t: string)
    requires '\n' !in w
    requires !(EndsWithCr(w) && |t| > 0 && t[0] == '\n')
    ensures SplitLines(w + t) == [w + SplitLines(t)[0]] + SplitLines(t)[1..]
    decreases |w|
  {
    if |w| > 0 {
      var w' := w[1..];
      assert '\n' !in w' by {
        forall i | 0 <= i < |w'| ensures w'[i] != '\n' {
          assert w'[i] == w[i + 1];
        }
      }
      assert w + t == [w[0]] + (w' + t);
      assert (w + t)[1..] == w' + t;
      assert w[0] != '\n' by { assert w[0] in w; }
      if w[0] == '\r' && |w' + t| >= 1 {
        if |w'| > 0 {
          assert (w' + t)[0] == w'[0];
          assert w'[0] in w';
        } else {
          assert EndsWithCr(w);
        }
      }
      if EndsWithCr(w') {
        assert EndsWithCr(w);
      }
      SplitPrepend(w', t);
      assert [w[0]] + (w' + SplitLines(t)[0]) == w + SplitLines(t)[0];
    } else {
      var r := SplitLines(t);
      assert w + t == t;
      assert w + r[0] == r[0];
      assert [r[0]] + r[1..] == r;
    }
  }

  /** A CR right before an LF belongs to the separator: it is dropped
      together with the LF and ends up in neither neighbouring line. */
  lemma CrLfSeparates(w: string, t: string)
    requires '\n' !in w
    ensures SplitLines(w + "\r\n" + t) == [w] + SplitLines(t)
  {
    assert w + "\r\n" + t == w + ("\r\n" + t);
    SplitPrepend(w, "\r\n" + t);
    assert ("\r\n" + t)[2..] == t;
    assert SplitLines("\r\n" + t) == [""] + SplitLines(t);
    assert w + "" == w;
  }

  /** Splitting the LF-join of separable lines restores them. */
  lemma {:induction false} SplitJoinRoundTrip(lines: seq<string>)
    requires Separable(lines)
    ensures SplitLines(JoinLines(lines)) == lines
    decreases |lines|
  {
    if |lines| == 1 {
      SplitPrepend(lines[0], "");
      assert lines[0] + "" == lines[0];
    } else {
      var w := lines[0];
      var t := JoinLines(lines[1..]);
      assert Separable(lines[1..]) by {
        forall i | 0 <= i < |lines[1..]| ensures '\n' !in lines[1..][i] {
          assert lines[1..][i] == lines[i + 1];
        }
        forall i | 0 <= i < |lines[1..]| - 1 ensures !EndsWithCr(lines[1..][i]) {
          assert lines[1..][i] == lines[i + 1];
        }
      }
      SplitJoinRoundTrip(lines[1..]);
      assert !EndsWithCr(w) by { assert 0 < |lines| - 1; }
      assert w + "\n" + t == w + ("\n" + t);
      SplitPrepend(w, "\n" + t);
      assert ("\n" + t)[1..] == t;
      assert SplitLines("\n" + t) == [""] + lines[1..];
      assert w + "" == w;
    }
  }

  /** For text without CR, joining the lines with LF rebuilds the text. */
  lemma {:induction false} JoinSplitRoundTrip(text: string)
    requires '\r' !in text
    ensures JoinLines(SplitLines(text)) == text
    decreases |text|
  {
    if |text| == 0 {
    } else {
      var t := text[1..];
      assert '\r' !in t by {
        forall i | 0 <= i < |t| ensures t[i] != '\r' {
          assert t[i] == text[i + 1];
        }
      }
      JoinSplitRoundTrip(t);
      assert text == [text[0]] + t;
      if text[0] == '\n' {
      } else {
        assert text[0] != '\r' by { assert text[0] in text; }
        var rest := SplitLines(t);
        var first := [text[0]] + rest[0];
        if |rest| == 1 {
        } else {
          assert rest[1..][1..] == rest[2..];
          assert JoinLines(rest) == rest[0] + "\n" + JoinLines(rest[1..]);
          assert JoinLines([first] + rest[1..]) == first + "\n" + JoinLines(rest[1..]);
        }
      }
    }
  }

  // ---------------------------------------------------------------------
  // Matching ^\s*menuentry ['"]([^'"]*)['"]
  // ---------------------------------------------------------------------

  /** The literal after the leading white space: the keyword and exactly one
      space. */
  const Keyword: string := "menuentry "

  predicate IsQuote(c: char) {
    c == '\'' || c == '"'
  }

  predicate QuoteFree(s: string) {
    forall i :: 0 <= i < |s| ==> !IsQuote(s[i])
  }

  /** Length of the longest prefix of `s` made of `\s` characters. */
  function LeadingSpaces(s: string): (k: nat)
    ensures k <= |s|
    ensures forall i :: 0 <= i < k ==> IsJsSpace(s[i])
    ensures k < |s| ==> !IsJsSpace(s[k])
  {
    if |s| == 0 || !IsJsSpace(s[0]) then 0 else 1 + LeadingSpaces(s[1..])
  }

  /** Length of the longest prefix of `s` without a quote character. */
  function QuoteFreePrefix(s: string): (k: nat)
    ensures k <= |s|
    ensures QuoteFree(s[..k])
    ensures k < |s| ==> IsQuote(s[k])
  {
    if |s| == 0 || IsQuote(s[0]) then 0
    else
      var k := 1 + QuoteFreePrefix(s[1..]);
      assert forall i :: 1 <= i < k ==> s[..k][i] == s[1..][..k - 1][i - 1];
      k
  }

  /** The regular expression matches `line` with `k` leading white-space
      characters and capture group `name`. */
  predicate MatchesAt(line: string, k: nat, name: string) {
    && k + |Keyword| + |name| + 2 <= |line|
    && (forall i :: 0 <= i < k ==> IsJsSpace(line[i]))
    && line[k..k + |Keyword|] == Keyword
    && IsQuote(line[k + |Keyword|])
    && line[k + |Keyword| + 1..k + |Keyword| + 1 + |name|] == name
    && QuoteFree(name)
    && IsQuote(line[k + |Keyword| + 1 + |name|])
  }

  /** `menu_pattern.exec(line)`, reduced to its capture group. The leading
      `\s*` cannot give back characters (the keyword starts with a letter)
      and `[^'"]*` stops at the first quote, so the match is found without
      backtracking. */
  function MatchMenuEntry(line: string): (capture: Option<string>)
    ensures capture.Some? ==> MatchesAt(line, LeadingSpaces(line), capture.value)
  {
    var k := LeadingSpaces(line);
    var start := k + |Keyword| + 1;
    if start <= |line| && line[k..k + |Keyword|] == Keyword && IsQuote(line[k + |Keyword|]) then
      var n := QuoteFreePrefix(line[start..]);
      if start + n < |line| then
        assert line[start..start + n] == line[start..][..n];
        Some(line[start..start + n])
      else None
    else None
  }

  /** Whenever the regular expression matches, the matcher returns its
      capture; with `MatchMenuEntry`'s own contract the two agree exactly. */
  lemma MatchComplete(line: string, k: nat, name: string)
    requires MatchesAt(line, k, name)
    ensures MatchMenuEntry(line) == Some(name)
  {
    var k' := LeadingSpaces(line);
    assert line[k] == Keyword[0];
    assert !IsJsSpace(line[k]);
    assert k' == k;
    var start := k + |Keyword| + 1;
    var body := line[start..];
    var n := QuoteFreePrefix(body);
    assert body[..|name|] == name;
    assert IsQuote(body[|name|]);
    assert n == |name|;
  }

  /** The opening and closing quotes may differ: `menuentry "name'` is
      captured like `menuentry 'name'`. */
  lemma MixedQuotesMatch(name: string, tail: string)
    requires QuoteFree(name)
    ensures MatchMenuEntry(Keyword + "\"" + name + "'" + tail) == Some(name)
  {
    var line := Keyword + "\"" + name + "'" + tail;
    assert line[..|Keyword|] == Keyword;
    assert line[|Keyword|] == '"';
    assert line[|Keyword| + 1..|Keyword| + 1 + |name|] == name;
    assert line[|Keyword| + 1 + |name|] == '\'';
    assert MatchesAt(line, 0, name);
    MatchComplete(line, 0, name);
  }

  /** Exactly one space must follow the keyword: with two, no line
      matches, whatever follows. */
  lemma TwoSpacesNoMatch(rest: string)
    ensures MatchMenuEntry("menuentry  " + rest) == None
  {
    var line := "menuentry  " + rest;
    assert line[0] == 'm';
    assert LeadingSpaces(line) == 0;
    assert line[|Keyword|] == ' ';
  }

  // ---------------------------------------------------------------------
  // The "windows" test and the scan
  // ---------------------------------------------------------------------

  const Windows: string := "windows"

  /** `!name.toLowerCase().search('windows')`: `search` yields -1 or an
      index, and only the index 0 is falsy, so the test holds exactly when
      "windows" occurs at the very start of the lower-cased name; an
      occurrence further inside yields a positive, truthy index and the test
      fails. */
  predicate IsWindowsName(name: string)
    ensures IsWindowsName(name) <==> OccursAt(Lower(name), Windows, 0)
    ensures IsWindowsName(name) <==> |name| >= |Windows| && Lower(name)[..|Windows|] == Windows
  {
    JsNot(IndexOf(Lower(name), Windows))
  }

  /** The test ignores case: a name passes exactly when its first seven
      characters spell "windows" in any mix of upper and lower case. */
  lemma WindowsNameIgnoresCase(name: string)
    ensures IsWindowsName(name) <==>
      && |name| >= |Windows|
      && forall i :: 0 <= i < |Windows| ==> name[i] == Windows[i] || name[i] as int == Windows[i] as int - 32
  {
    var l := Lower(name);
    if |name| >= |Windows| {
      forall i | 0 <= i < |Windows|
        ensures l[i] == Windows[i] <==> name[i] == Windows[i] || name[i] as int == Windows[i] as int - 32
      {
        assert 'a' <= Windows[i] <= 'z';
        assert l[i] == LowerChar(name[i]);
      }
      assert l[..|Windows|] == Windows <==> forall i :: 0 <= i < |Windows| ==> l[i] == Windows[i];
    }
  }

  /** Every title that starts with "Windows" passes the test, whatever
      follows, as in os-prober's "Windows Boot Manager (on /dev/sda1)". */
  lemma WindowsPrefixAccepted(rest: string)
    ensures IsWindowsName("Windows" + rest)
  {
    var name := "Windows" + rest;
    var l := Lower(name);
    assert name[0] == 'W' && l[0] == 'w';
    assert name[1] == 'i' && l[1] == 'i';
    assert name[2] == 'n' && l[2] == 'n';
    assert name[3] == 'd' && l[3] == 'd';
    assert name[4] == 'o' && l[4] == 'o';
    assert name[5] == 'w' && l[5] == 'w';
    assert name[6] == 's' && l[6] == 's';
    assert l[..|Windows|] == Windows;
  }

  /** A title that mentions Windows only after a first character other
      than `w`/`W`, as in "Microsoft Windows", fails the test although
      `search` finds "windows": the index it returns is positive, hence
      truthy, and its negation is false. */
  lemma WindowsInsideRejected(before: string, rest: string)
    requires |before| > 0 && LowerChar(before[0]) != 'w'
    ensures IndexOf(Lower(before + "Windows" + rest), Windows) > 0
    ensures !IsWindowsName(before + "Windows" + rest)
  {
    var name := before + "Windows" + rest;
    var l := Lower(name);
    var k := |before|;
    assert name[k] == 'W' && l[k] == 'w';
    assert name[k + 1] == 'i' && l[k + 1] == 'i';
    assert name[k + 2] == 'n' && l[k + 2] == 'n';
    assert name[k + 3] == 'd' && l[k + 3] == 'd';
    assert name[k + 4] == 'o' && l[k + 4] == 'o';
    assert name[k + 5] == 'w' && l[k + 5] == 'w';
    assert name[k + 6] == 's' && l[k + 6] == 's';
    assert l[k..k + |Windows|] == Windows;
    assert OccursAt(l, Windows, k);
    assert name[0] == before[0];
    assert !OccursAt(l, Windows, 0) by { assert l[0] != Windows[0]; }
  }

  /** The capture of a line that both matches and passes the test. */
  function Qualifies(line: string): Option<string> {
    var m := MatchMenuEntry(line);
    if m.Some? && IsWindowsName(m.value) then m else None
  }

  /** The value `boot_entry` ends with: the capture of the last qualifying
      line, or "" when no line qualifies. */
  function LastWindowsEntry(lines: seq<string>): (entry: string)
    ensures entry == "" || IsWindowsName(entry)
    ensures QuoteFree(entry)
  {
    if |lines| == 0 then ""
    else
      match Qualifies(lines[|lines| - 1])
      case Some(name) => name
      case None => LastWindowsEntry(lines[..|lines| - 1])
  }

  /** A name that passes the test is never empty. */
  lemma WindowsNameNonEmpty(name: string)
    requires IsWindowsName(name)
    ensures |name| >= |Windows|
  {
  }

  /** The result is the capture of the last qualifying line. */
  lemma {:induction false} LastEntryIsLastQualifying(lines: seq<string>, i: nat)
    requires i < |lines| && Qualifies(lines[i]).Some?
    requires forall j :: i < j < |lines| ==> Qualifies(lines[j]).None?
    ensures LastWindowsEntry(lines) == Qualifies(lines[i]).value
    decreases |lines|
  {
    if i < |lines| - 1 {
      var init := lines[..|lines| - 1];
      assert init[i] == lines[i];
      forall j | i < j < |init| ensures Qualifies(init[j]).None? {
        assert init[j] == lines[j];
      }
      LastEntryIsLastQualifying(init, i);
    }
  }

  /** The result is "" exactly when no line qualifies. */
  lemma {:induction false} NoEntryIffNoQualifyingLine(lines: seq<string>)
    ensures LastWindowsEntry(lines) == "" <==> forall i :: 0 <= i < |lines| ==> Qualifies(lines[i]).None?
    decreases |lines|
  {
    if |lines| > 0 {
      var last := lines[|lines| - 1];
      var init := lines[..|lines| - 1];
      NoEntryIffNoQualifyingLine(init);
      assert forall i :: 0 <= i < |init| ==> init[i] == lines[i];
      match Qualifies(last)
      case Some(name) =>
        WindowsNameNonEmpty(name);
      case None =>
    }
  }

  /** One more line at the end wins if it qualifies. */
  lemma LastEntrySnoc(init: seq<string>, line: string)
    ensures LastWindowsEntry(init + [line]) ==
      (if Qualifies(line).Some? then Qualifies(line).value else LastWindowsEntry(init))
  {
    var xs := init + [line];
    assert xs[|xs| - 1] == line;
    assert xs[..|xs| - 1] == init;
  }

  /** Concatenated line lists: the later part wins when it has an entry. */
  lemma {:induction false} LastEntryAppend(a: seq<string>, b: seq<string>)
    ensures LastWindowsEntry(a + b) ==
      (if LastWindowsEntry(b) != "" then LastWindowsEntry(b) else LastWindowsEntry(a))
    decreases |b|
  {
    if |b| == 0 {
      assert a + b == a;
    } else {
      var init := b[..|b| - 1];
      var last := b[|b| - 1];
      assert b == init + [last];
      assert a + b == (a + init) + [last];
      LastEntrySnoc(a + init, last);
      LastEntrySnoc(init, last);
      if Qualifies(last).Some? {
        WindowsNameNonEmpty(Qualifies(last).value);
      } else {
        LastEntryAppend(a, init);
      }
    }
  }

  /** A line that does not qualify - in particular one the pattern does not
      match - can be removed without changing the result. */
  lemma NonQualifyingLineIgnored(a: seq<string>, line: string, b: seq<string>)
    requires Qualifies(line).None?
    ensures LastWindowsEntry(a + [line] + b) == LastWindowsEntry(a + b)
  {
    LastEntryAppend(a + [line], b);
    LastEntryAppend(a, b);
    assert (a + [line])[..|a + [line]| - 1] == a;
  }

  /** `get_windows_grub_entry` on the decoded file text: the forEach over
      the lines with `boot_entry` overwritten by every qualifying capture. */
  method WindowsGrubEntry(contents: string) returns (bootEntry: string)
    ensures bootEntry == LastWindowsEntry(SplitLines(contents))
    ensures bootEntry == "" <==> forall line :: line in SplitLines(contents) ==> Qualifies(line).None?
  {
    var lines := SplitLines(contents);
    bootEntry := "";
    for i := 0 to |lines|
      invariant bootEntry == LastWindowsEntry(lines[..i])
    {
      var matches := MatchMenuEntry(lines[i]);
      if matches.Some? && IsWindowsName(matches.value) {
        bootEntry := matches.value;
      }
      assert lines[..i + 1][..i] == lines[..i];
    }
    assert lines[..|lines|] == lines;
    NoEntryIffNoQualifyingLine(lines);
  }
}

=== FILE: message.dfy ===
/** The text of the confirmation dialog: the translated template with its
    first `%d` replaced by the decimal rendering of the displayed seconds.
    Translation is the identity here. */
module DialogMessage {
  import opened Strings

  const Template: string := "The system will restart automatically in %d seconds."
  const Placeholder: string := "%d"

  /** The template text before and after the placeholder. */
  const Before: string := "The system will restart automatically in "
  const After: string := " seconds."

  /** The template is the prefix, the placeholder and the suffix, and the
      placeholder does not occur inside the prefix. */
  lemma PlaceholderPosition()
    ensures Template == Before + Placeholder + After
    ensures forall j :: 0 <= j < |Before| ==> !OccursAt(Template, Placeholder, j)
  {
    assert Template == Before + Placeholder + After;
    assert '%' !in Before;
    forall j | 0 <= j < |Before| ensures !OccursAt(Template, Placeholder, j) {
      assert Template[j] == Before[j];
      assert Template[j..j + 2][0] == Template[j];
    }
  }

  /** `getDialogMessageText()` for the given value of `seconds`: the number
      appears where the placeholder was and the rest of the template is
      unchanged. */
  function MessageText(seconds: int): (text: string)
    ensures text == Before + DecimalString(seconds) + After
  {
    PlaceholderPosition();
    ReplaceFirstAt(Template, Placeholder, DecimalString(seconds), Before, After);
    ReplaceFirst(Template, Placeholder, DecimalString(seconds))
  }

  /** The number shown in a message text: the part between the fixed
      prefix and suffix, read as a decimal numeral. */
  function SecondsShown(text: string): int
    requires |text| >= |Before| + |After|
    requires IsNumeral(text[|Before|..|text| - |After|])
  {
    ParseDecimal(text[|Before|..|text| - |After|])
  }

  /** The message text determines the number it was rendered from. */
  lemma MessageRoundTrip(seconds: int)
    ensures var text := MessageText(seconds);
      && |text| >= |Before| + |After|
      && IsNumeral(text[|Before|..|text| - |After|])
      && SecondsShown(text) == seconds
  {
    var text := MessageText(seconds);
    assert text[|Before|..|text| - |After|] == DecimalString(seconds);
    DecimalRoundTrip(seconds);
  }

  /** Different numbers give different message texts. */
  lemma MessageTextInjective(a: int, b: int)
    requires MessageText(a) == MessageText(b)
    ensures a == b
  {
    var ta := MessageText(a);
    var tb := MessageText(b);
    assert DecimalString(a) == ta[|Before|..|ta| - |After|];
    assert DecimalString(b) == tb[|Before|..|tb| - |After|];
    DecimalStringInjective(a, b);
  }
}

=== FILE: reboot.dfy ===
/** The command line `reboot()` hands to the shell-word parser: the Windows
    entry found by the GRUB scan, interpolated between double quotes after
    `pkexec grub-reboot`. The name is not escaped and not checked for being
    empty; what the scan guarantees is that it holds no quote character. */
module Reboot {
  import opened Grub

  const CommandPrefix: string := "pkexec grub-reboot \""

  /** The interpolated template `pkexec grub-reboot "${entry}"`. */
  function CommandLine(entry: string): (cmd: string)
    ensures |cmd| == |CommandPrefix| + |entry| + 1
    ensures cmd[..|CommandPrefix|] == CommandPrefix
    ensures cmd[|CommandPrefix|..|cmd| - 1] == entry
    ensures cmd[|cmd| - 1] == '"'
  {
    CommandPrefix + entry + "\""
  }

  /** The command line built from the GRUB configuration text. */
  function RebootCommand(grubConfig: string): string {
    CommandLine(LastWindowsEntry(SplitLines(grubConfig)))
  }

  /** For a name without quote characters the only double quotes of the
      command line are the two that delimit the name, and the name is
      exactly what lies between them. */
  lemma CommandLineQuotes(entry: string)
    requires QuoteFree(entry)
    ensures var cmd := CommandLine(entry);
      && (forall i :: 0 <= i < |cmd| ==> (cmd[i] == '"' <==> i == |CommandPrefix| - 1 || i == |cmd| - 1))
      && cmd[|CommandPrefix|..|cmd| - 1] == entry
  {
    var cmd := CommandLine(entry);
    forall i | 0 <= i < |cmd|
      ensures cmd[i] == '"' <==> i == |CommandPrefix| - 1 || i == |cmd| - 1
    {
      if i < |CommandPrefix| {
        assert cmd[i] == CommandPrefix[i];
      } else if i < |cmd| - 1 {
        assert cmd[i] == entry[i - |CommandPrefix|];
        assert !IsQuote(entry[i - |CommandPrefix|]);
      }
    }
    assert cmd[|CommandPrefix|..|cmd| - 1] == entry;
  }

  /** Whatever the configuration text, the command line delimits the
      scanned name with exactly two double quotes. */
  lemma RebootCommandQuotes(grubConfig: string)
    ensures var cmd := RebootCommand(grubConfig);
      forall i :: 0 <= i < |cmd| ==> (cmd[i] == '"' <==> i == |CommandPrefix| - 1 || i == |cmd| - 1)
  {
    CommandLineQuotes(LastWindowsEntry(SplitLines(grubConfig)));
  }

  /** A configuration without a qualifying line still yields a command,
      with an empty entry name between the quotes. */
  lemma EmptyEntryPassesThrough(grubConfig: string)
    requires forall line :: line in SplitLines(grubConfig) ==> Qualifies(line).None?
    ensures RebootCommand(grubConfig) == "pkexec grub-reboot \"\""
  {
    var lines := SplitLines(grubConfig);
    NoEntryIffNoQualifyingLine(lines);
    assert forall i :: 0 <= i < |lines| ==> lines[i] in lines;
  }
}

=== FILE: strings.dfy ===
/** String primitives of the JavaScript runtime that the extension relies on:
    the `\s` character class, ASCII lower-casing, first-occurrence search
    (`String.prototype.indexOf`, and `search` with a pattern free of regular-
    expression metacharacters), first-occurrence replacement
    (`String.prototype.replace` with a string pattern) and the decimal
    rendering `String(n)` of a safe integer (|n| <= 2^53; beyond that a
    JavaScript number is a double and prints the shortest digit string that
    rounds back to it). */
module Strings {

  /** The characters matched by `\s` in an ECMAScript regular expression:
      WhiteSpace (tab, vertical tab, form feed, zero-width no-break space and
      every space separator) and LineTerminator (LF, CR, LS, PS). */
  predicate IsJsSpace(c: char) {
    || c == '\t' || c == '\n' || c == '\U{0B}' || c == '\U{0C}' || c == '\r'
    || c == ' ' || c == '\U{A0}' || c == '\U{1680}'
    || ('\U{2000}' <= c <= '\U{200A}')
    || c == '\U{2028}' || c == '\U{2029}' || c == '\U{202F}' || c == '\U{205F}'
    || c == '\U{3000}' || c == '\U{FEFF}'
  }

  /** Lower-casing restricted to the ASCII letters. */
  function LowerChar(c: char): (l: char)
    ensures 'A' <= c <= 'Z' ==> 'a' <= l <= 'z'
    ensures !('A' <= c <= 'Z') ==> l == c
  {
    if 'A' <= c <= 'Z' then (c as int - 'A' as int + 'a' as int) as char else c
  }

  function Lower(s: string): (l: string)
    ensures |l| == |s|
    ensures forall i :: 0 <= i < |s| ==> l[i] == LowerChar(s[i])
  {
    if |s| == 0 then [] else [LowerChar(s[0])] + Lower(s[1..])
  }

  /** `needle` occurs in `hay` starting at index `i`. */
  predicate OccursAt(hay: string, needle: string, i: int) {
    0 <= i && i + |needle| <= |hay| && hay[i..i + |needle|] == needle
  }

  /** The first index at or after `from` where `needle` occurs, or -1. */
  function IndexFrom(hay: string, needle: string, from: nat): (r: int)
    ensures r == -1 || (from <= r && OccursAt(hay, needle, r))
    ensures forall j :: from <= j && (r == -1 || j < r) ==> !OccursAt(hay, needle, j)
    decreases |hay| + 1 - from
  {
    if from + |needle| > |hay| then -1
    else if OccursAt(hay, needle, from) then from
    else IndexFrom(hay, needle, from + 1)
  }

  /** The index of the first occurrence of `needle` in `hay`, or -1 when
      there is none: the result of `indexOf`, and of `search` for a needle
      without metacharacters. */
  function IndexOf(hay: string, needle: string): (r: int)
    ensures r == -1 || OccursAt(hay, needle, r)
    ensures forall j :: 0 <= j && (r == -1 || j < r) ==> !OccursAt(hay, needle, j)
  {
    IndexFrom(hay, needle, 0)
  }

  /** JavaScript's logical not applied to a number: only zero is falsy among
      the values `search` can return. */
  predicate JsNot(n: int) {
    n == 0
  }

  /** `s.replace(pat, rep)` with a string `pat` and a replacement free of `$`
      patterns: the first occurrence of `pat`, if any, becomes `rep`. */
  function ReplaceFirst(s: string, pat: string, rep: string): (r: string)
    ensures IndexOf(s, pat) == -1 ==> r == s
    ensures var i := IndexOf(s, pat);
      i >= 0 ==>
        && |r| == |s| - |pat| + |rep|
        && r[..i] == s[..i]
        && r[i..i + |rep|] == rep
        && r[i + |rep|..] == s[i + |pat|..]
  {
    var i := IndexOf(s, pat);
    if i == -1 then s else s[..i] + rep + s[i + |pat|..]
  }

  /** Replacing the first occurrence leaves the text before and after it
      exactly as it was. */
  lemma ReplaceFirstAt(s: string, pat: string, rep: string, before: string, after: string)
    requires s == before + pat + after
    requires forall j :: 0 <= j < |before| ==> !OccursAt(s, pat, j)
    ensures ReplaceFirst(s, pat, rep) == before + rep + after
  {
    assert s[|before|..|before| + |pat|] == pat;
    assert OccursAt(s, pat, |before|);
    var i := IndexOf(s, pat);
    assert i == |before|;
    assert s[..i] == before;
    assert s[i + |pat|..] == after;
  }

  predicate IsDigit(c: char) {
    '0' <= c <= '9'
  }

  predicate AllDigits(s: string) {
    forall i :: 0 <= i < |s| ==> IsDigit(s[i])
  }

  function DigitChar(d: nat): (c: char)
    requires d < 10
    ensures IsDigit(c)
  {
    ('0' as int + d) as char
  }

  function DigitValue(c: char): (d: nat)
    requires IsDigit(c)
    ensures d < 10 && DigitChar(d) == c
  {
    c as int - '0' as int
  }

  /** The shortest decimal numeral of `n`: digits only, no leading zero. */
  function NatDigits(n: nat): (s: string)
    ensures |s| >= 1 && AllDigits(s)
    ensures s[0] == '0' <==> n == 0
    ensures |s| > 1 ==> s[0] != '0'
    decreases n
  {
    if n < 10 then [DigitChar(n)] else NatDigits(n / 10) + [DigitChar(n % 10)]
  }

  /** `String(n)` for a safe integer, |n| <= 2^53; larger JavaScript numbers
      are doubles, printed as the shortest digit string that rounds back to
      them, and are not covered. The rendering is canonical: a minus sign
      exactly for negative numbers and no leading zero. */
  function DecimalString(n: int): (r: string)
    ensures IsNumeral(r)
    ensures r[0] == '-' <==> n < 0
    ensures r[0] == '0' ==> r == "0"
    ensures r[0] == '-' ==> r[1] != '0'
  {
    if n < 0 then "-" + NatDigits(-n) else NatDigits(n)
  }

  /** The value of a numeral, read most significant digit first. */
  function ParseNat(s: string): nat
    requires AllDigits(s)
  {
    if |s| == 0 then 0 else ParseNat(s[..|s| - 1]) * 10 + DigitValue(s[|s| - 1])
  }

  /** An optional minus sign followed by at least one digit. */
  predicate IsNumeral(s: string) {
    || (|s| >= 1 && AllDigits(s))
    || (|s| >= 2 && s[0] == '-' && AllDigits(s[1..]))
  }

  function ParseDecimal(s: string): int
    requires IsNumeral(s)
  {
    if s[0] == '-' then -(ParseNat(s[1..]) as int) else ParseNat(s)
  }

  lemma {:induction false} NatDigitsRoundTrip(n: nat)
    ensures ParseNat(NatDigits(n)) == n
    decreases n
  {
    var s := NatDigits(n);
    if n >= 10 {
      NatDigitsRoundTrip(n / 10);
      assert s[..|s| - 1] == NatDigits(n / 10);
      assert s[|s| - 1] == DigitChar(n % 10);
    }
  }

  /** Reading back the decimal rendering of any integer gives that integer. */
  lemma DecimalRoundTrip(n: int)
    ensures IsNumeral(DecimalString(n))
    ensures ParseDecimal(DecimalString(n)) == n
  {
    if n < 0 {
      var s := DecimalString(n);
      assert s[1..] == NatDigits(-n);
      NatDigitsRoundTrip(-n);
    } else {
      NatDigitsRoundTrip(n);
    }
  }

  /** Distinct integers are rendered as distinct strings. */
  lemma DecimalStringInjective(a: int, b: int)
    requires DecimalString(a) == DecimalString(b)
    ensures a == b
  {
    DecimalRoundTrip(a);
    DecimalRoundTrip(b);
  }
}
